=== FILE: README.md ===
# Chat assistant front end: a Dafny model of its decision logic

The front end of a document-grounded chat assistant. Users sign in, upload
documents, chat with an assistant and rate its replies. Nearly all of it is
rendering and REST calls. This project models the small decision procedures
inside it as pure functions over immutable data:

- **Token store** (`Auth`, lib/auth.ts). Browser local storage is a `map<string, string>`.
  A read treats the stored texts `"null"`, `"undefined"` and `""` as no token,
  and it heals the slot by removing them. Being signed in means a read returns a token.
  Outside a browser (`hasWindow == false`), every operation does nothing.
- **Authenticated fetch** (`AuthFetch`, `fetchWithAuth` in lib/api.ts). It takes:
  - the stored tokens;
  - the caller's headers;
  - the first response, the refresh outcome and the replayed response, as abstract values.

  It returns the final result, the storage left behind, the `/login` redirect flag,
  and the list of requests issued. On a 401 it makes at most one refresh and one replay, never a loop.
- **API decisions** (`Api`, lib/api.ts): which message a failed upload throws, and how a
  registration answer is shaped.
- **Chat view** (`Chat`, app/chat/page.tsx). Submit, new chat, and feedback
  open/submit/cancel are transitions on `(messages, input, isLoading, dialog, feedbackText)`.
- **Document panel** (`Sidebar`, components/chat-sidebar.tsx):
  - the MIME-type and 10 MiB upload checks;
  - prepend on upload and filter on delete;
  - the pending flags and tab clicks;
  - `truncateFilename`.

`Text` models the JavaScript string operations these rely on: `trim` (ECMAScript
white space and line terminators), `join`, and `a || b` on strings. `Wrappers`
holds `Option` (for `null`) and `Result` (for a call that throws).

Facts about the code that shape the model:

- On a failed refresh the code clears only `auth_token`. `removeAuthToken` touches no
  other key, so the refresh token survives a forced sign-out
  (`AuthFetch.SignOutKeepsRefreshSlot`).
- A failed send appends two messages: the user's and the error bubble. So after a series
  of sends, the list grows by two for every send that reaches the backend, failed or not
  (`Chat.ConversationLength`, `Chat.TwoMessagesPerSend`).
- The feedback dialog records polarity and comment together, and only in local state.
  No feedback call is made.
- `fetchWithAuth` takes `getRefreshToken` and `setAuthTokens` from lib/auth.ts, which does
  not define them. As written, both are `undefined`, so every 401 seen in a browser makes
  the call at lib/api.ts:358 throw a TypeError: the promise rejects before any refresh,
  sign-out or redirect. The model gives the two helpers the behaviour the caller relies
  on: a plain read of `refresh_token`, and a write of both slots.
- The sidebar passes one `File` to `uploadDocument` (components/chat-sidebar.tsx:107), which
  expects an array. As written, `files.forEach` (lib/api.ts:165) is not a function of a
  `File`, so the call throws a TypeError before any request and the toast shows that
  error. The model takes the call as meant: one file goes up and one document comes
  back and is prepended. `Sidebar.HandleFileChange` takes the upload outcome as a parameter,
  so a failure with the TypeError's text gives the as-written toast and list, except that
  its `uploadRequested` is then true although no request leaves the browser.
- An error `detail` is turned into a message by `new Error(detail || fallback)`. A FastAPI
  validation error is an array, so its message is the comma-joined text of its elements,
  "[object Object]" once per entry; an empty array gives the empty message.
- The chat page renders `ChatSidebar` with `isOpen` and `onClose` (app/chat/page.tsx:326),
  but the sidebar takes `isCollapsed`, `onToggle` and `onNewChat`
  (components/chat-sidebar.tsx:33-38) and never calls `onNewChat`. As written,
  `isCollapsed` is undefined, so the collapsed view whose icons call `handleTabClick`
  never renders, and `handleNewChat` is never called. `Sidebar.HandleTabClick` and
  `Chat.NewChat` model the handlers as they would run once wired.

## Model

| member | source | states |
|---|---|---|
| Auth.SetAuthToken | lib/auth.ts:1-5 | in a browser the access slot holds the given token afterwards and no other key changes; without a window storage is unchanged |
| Auth.GetAuthToken | lib/auth.ts:7-20 | a token is returned iff there is a window and the slot holds a non-sentinel value, and then it is the stored value with storage untouched; a sentinel is removed and reads as none; the resulting store is normalised and other keys are kept |
| Auth.RemoveAuthToken | lib/auth.ts:22-26 | in a browser the access slot is empty afterwards; no other key, in particular not the refresh slot, changes |
| Auth.IsAuthenticated | lib/auth.ts:28-31 | authenticated exactly when a window exists and the slot holds a non-sentinel value; it heals storage as the read does |
| Auth.GetRefreshToken | lib/api.ts:358-360 | the refresh token is present exactly when the refresh slot is set, and is its value |
| Auth.SetAuthTokens | lib/api.ts:371-373 | both slots hold the new pair afterwards and every other key is kept |
| Auth.SetThenGet | lib/auth.ts:1-17 | round trip: storing a non-sentinel token and reading returns it with storage unchanged; storing a sentinel reads back as none and empties the slot |
| Auth.RemoveThenGet | lib/auth.ts:22-31 | after removal a read returns none without changing storage, and the user is not authenticated |
| Auth.RemoveKeepsRefresh | lib/auth.ts:22-26 | removing the access token leaves the refresh slot exactly as it was |
| Auth.GetIdempotent | lib/auth.ts:7-20 | a second read returns the same token and leaves the same storage as the first |
| Auth.AuthenticatedIffToken | lib/auth.ts:28-31 | authenticated exactly when a read returns a token |
| Auth.NoWindowInert | lib/auth.ts:1-26 | without a window, reads return none and writes and removals change nothing |
| Auth.TokenPairRoundTrip | lib/api.ts:358-373 | a stored pair reads back: the refresh token as stored, the access token unless it is a sentinel; removing the access token keeps the refresh token readable |
| AuthFetch.AuthHeaders | lib/api.ts:343-353 | a truthy token adds `Authorization: Bearer <token>`; the caller's other headers are always kept, and with no token the headers are the caller's |
| AuthFetch.FetchWithAuth | lib/api.ts:338-390 | the first request carries the token a read returns. A non-401 answer, or any answer without a window, passes through with no refresh, no redirect and only the read's self-healing. On a 401 in a browser: refresh is called iff a truthy refresh token is stored, and with that token; a good refresh stores the pair and returns the replay's answer even if it is 401; every other path clears the access token, redirects and returns the first 401. There are at most one refresh and two target requests, and a second target request only follows a refresh. Storage changes only in the two token slots, and the refresh slot only after a good refresh |
| AuthFetch.SecondUnauthorizedIsReturned | lib/api.ts:371-374 | two 401s in a row end the call with the second 401, three requests and exactly one refresh, with no loop |
| AuthFetch.SignOutKeepsRefreshSlot | lib/api.ts:375-386 | a forced sign-out redirects and leaves storage exactly as it was apart from the removed access token, so the refresh slot keeps its value |
| AuthFetch.ReplayFailureKeepsNewRefresh | lib/api.ts:361-382 | if the replay fails on the network, the original 401 comes back, the user is redirected and the access token removed, but the new refresh token stays stored |
| AuthFetch.FirstRequestAuthorizedIff | lib/api.ts:341-355 | when the caller sends no `Authorization`, the first request carries one exactly when the user is signed in, as `Bearer` followed by the stored token |
| Api.UploadFailureMessage | lib/api.ts:174-193 | A non-4xx status always gives the fixed text. On a 4xx: the per-file errors joined by newline when that join is non-empty, else `detail.message`, else the fixed text. Any other detail gives the message of `new Error(detail || fixed text)`. The message is empty exactly on a 4xx whose detail is an array joining to nothing |
| Api.ThrownText | lib/api.ts:184-188 | `new Error(detail \|\| fallback)`: the fallback for a falsy detail, a non-empty string as is, "[object Object]" for an object; for an array, the element texts joined by commas; with a fallback, empty exactly for an array joining to nothing |
| Api.UploadDocument | lib/api.ts:161-197 | succeeds exactly on a 2xx status with the listed documents; otherwise fails with the message above, empty exactly in the empty-array case |
| Api.SingleFileError | lib/api.ts:178-182 | one rejected file with a non-empty reason on a 4xx makes that reason the whole message |
| Api.RegisterUser | lib/api.ts:81-110 | succeeds exactly on 2xx. The answer carries the backend's access token, the submitted email and name, null avatar and bio, no refresh token, and an id starting with "user-"; its message is the backend's when non-empty. A failure carries the message of `new Error(detail || "Registration failed")`: a non-empty string detail as is, and an empty message exactly for an array detail joining to nothing |
| Api.RegisterIgnoresPassword | lib/api.ts:81-110 | the answer and the error do not depend on the submitted password |
| Text.Trim | app/chat/page.tsx:211-216 | `input.trim()`: a slice of the input with no white space at either end, and everything cut away before and after it is white space |
| Text.OrElse | lib/api.ts:182 | `a \|\| b` on strings: `a` unless it is empty, then `b`; empty only when both are |
| Text.Join | lib/api.ts:179-181 | `join`: empty for no parts; the first part opens the result and the last part closes it |
| Text.TrimEmptyIff | app/chat/page.tsx:211 | trimmed input is empty exactly when every character is white space |
| Text.TrimIdempotent | app/chat/page.tsx:216 | trimming a trimmed text changes nothing |
| Text.JoinEmptyIff | lib/api.ts:179-182 | a newline join is empty exactly when there are no parts or one empty part |
| Text.JoinLength | lib/api.ts:179-181 | the joined text is as long as all parts plus one separator between neighbours |
| Chat.TypeInput | app/chat/page.tsx:452 | the text box holds exactly the typed text and nothing else in the view changes |
| Chat.Submit | app/chat/page.tsx:209-254 | blank input or a send in flight changes nothing. Otherwise the old list is kept as a prefix, one user message with the trimmed input is appended, the input is cleared and loading ends false. Then comes one assistant message with the reply's id and content on success, or one fixed-text error bubble on failure, or nothing plus a redirect when there is no token |
| Chat.NewChat | app/chat/page.tsx:263-266 | empty list and empty input; loading flag and dialog untouched |
| Chat.OpenFeedback | app/chat/page.tsx:279-286 | the dialog opens on the given message and polarity with empty text; messages, input and loading unchanged |
| Chat.Comment | app/chat/page.tsx:297 | no comment exactly when the text is all white space; otherwise the trimmed text |
| Chat.ApplyFeedback | app/chat/page.tsx:291-301 | same length. Every message with the id gets the vote and comment, with its other fields as before; every other message is unchanged |
| Chat.SubmitFeedback | app/chat/page.tsx:288-317 | with no message id (or an empty one) or no polarity, nothing changes. Otherwise only messages with the dialog's id change, and only in vote and comment. The list length is kept, and the dialog closes with null id, null type and empty text |
| Chat.CancelFeedback | app/chat/page.tsx:319-322 | the dialog closes with null id and type and empty text; messages, input and loading unchanged |
| Chat.DialogConsistencyPreserved | app/chat/page.tsx:175-322 | every handler keeps "open exactly when it names a message and a polarity" |
| Chat.FeedbackLastWriteWins | app/chat/page.tsx:291-301 | a second feedback on the same message overwrites the first |
| Chat.ConversationLength | app/chat/page.tsx:209-254 | over any sequence of typed-and-sent turns, the old list stays a prefix and loading ends false. The list grows by 2 per turn that reaches the backend, 1 per turn without a token, 0 per blank turn |
| Chat.TwoMessagesPerSend | app/chat/page.tsx:209-254 | when no send is in flight and every turn has text and a token, the message list keeps the old messages as a prefix and grows by exactly two per turn |
| Sidebar.Validate | components/chat-sidebar.tsx:75-98 | accepted exactly for one of the three MIME types with size at most 10 MiB. The wrong type is reported whatever the size; too large only for an allowed type |
| Sidebar.SizeBoundary | components/chat-sidebar.tsx:90-91 | the limit is 10485760 bytes: exactly that size passes, one byte more fails, and a wrong type fails on type |
| Sidebar.ValidateMonotone | components/chat-sidebar.tsx:75-98 | shrinking an accepted file keeps it accepted, growing a too-large file keeps it too large, and the size never decides the type check |
| Sidebar.HandleFileChange | components/chat-sidebar.tsx:71-131 | no file or a refused file: no request and nothing changes. A valid file: an upload request iff signed in, and the uploading flag ends cleared. A success prepends exactly the uploaded document with the old list after it. Any failure leaves the list and reports the thrown message |
| Sidebar.Without | components/chat-sidebar.tsx:146 | the result holds only documents of the list whose id differs, and every such document |
| Sidebar.WithoutCount | components/chat-sidebar.tsx:146 | the filter removes exactly as many documents as carry the id, and none with the id remains |
| Sidebar.WithoutAppend | components/chat-sidebar.tsx:146 | filtering a concatenation is concatenating the filtered parts, so the remaining documents keep their order |
| Sidebar.WithoutAbsent | components/chat-sidebar.tsx:146 | a list with no document of that id is returned unchanged |
| Sidebar.HandleDeleteDocument | components/chat-sidebar.tsx:133-162 | the delete request goes out iff signed in, and the pending id is cleared after success and failure. Success removes exactly the documents with that id; failure leaves the list; nothing else in the panel changes |
| Sidebar.UploadThenDelete | components/chat-sidebar.tsx:107-146 | deleting a just-uploaded document whose id is new restores the list from before the upload |
| Sidebar.UploadFailureReported | components/chat-sidebar.tsx:102-129 | when the upload answer is not ok, the toast reports exactly the message `uploadDocument` throws, and only the uploading flag changes |
| Sidebar.HandleTabClick | components/chat-sidebar.tsx:164-169 | the clicked tab becomes active, nothing else in the panel changes, and toggle is requested exactly when collapsed |
| Sidebar.LastTabClickWins | components/chat-sidebar.tsx:164-169 | after two clicks the panel and the expand request are as if only the second click happened |
| Sidebar.LoadDocuments | components/chat-sidebar.tsx:48-65 | loading ends false. Signed in: the fetched list, or an empty list on failure. Not signed in: the list is unchanged |
| Sidebar.LoadDocumentsIdempotent | components/chat-sidebar.tsx:48-65 | loading twice with the same answer ends as loading once |
| Sidebar.TruncateFilename | components/chat-sidebar.tsx:171-174 | a name within the limit is unchanged. A longer one becomes its first `maxLength` characters (none if negative) followed by "...", so its length is `maxLength + 3`, or 3 for a negative `maxLength` |
| Sidebar.TruncateBounds | components/chat-sidebar.tsx:171-174 | the displayed name is at most `maxLength + 3` long and begins like the real one |
| Sidebar.TruncateIdempotent | components/chat-sidebar.tsx:171-174 | truncating a truncated name changes nothing |
| Sidebar.TruncateUnchangedIff | components/chat-sidebar.tsx:171-174 | a name is displayed unchanged exactly when it fits, or when its text after the first `maxLength` characters is "..." |
| Sidebar.ListedNameBounds | components/chat-sidebar.tsx:171-174 | in the document list, names of at most 15 characters are shown whole and longer ones as exactly 18 characters ending in "..." |

## Left out

- Rendering, styling, toasts, console logging and the deferred auto-scroll: presentation and timing, not decisions.
- Real `fetch`, `localStorage`, `window.location`, `router.push`: each becomes a parameter (responses, outcomes) or a result (storage map, redirect flag, issued requests).
- JSON parsing: bodies are reduced to the fields read. A parse failure inside `uploadDocument`'s inner try surfaces the parser's own error text, which is engine-specific, so it is not modelled.
- `Date.now()` ids and timestamps: passed in as opaque strings.
- The float `similarity` of references, and the references display: not part of any decision.
- Concurrent interleavings (a late reply after "new chat", a refresh racing a sign-out): each handler is atomic.
- The other API functions (`loginUser`, `sendMessage`, `getChatSessions`, `getDocuments`, `deleteDocument`, profile, password, feedback, history): each only checks `response.ok` and throws a fixed or `detail` text. Their outcomes enter the chat and panel handlers as `SendOutcome`, `Result` and `bool` parameters.
- The settings, register, layout and landing pages, `handleLogout`, `handleSettings` and `handleKeyDown`: route plumbing over the modelled calls.
- The hard-coded demo conversation and the static quick-reference list: fixed data.
- Sidebar.TruncateFilename: lengths count Unicode code points, whereas JavaScript counts UTF-16 code units. The two differ only for characters outside the Basic Multilingual Plane.
- Auth.GetRefreshToken: the real reader does not exist in lib/auth.ts. The model reads the slot as stored, with no sentinel handling; the only check applied is the caller's truthiness test.
- Api.UploadFailureMessage: the message may be empty. A 4xx whose `detail` is `[]` or `[null]` throws an Error with the empty message; the contract states exactly when that happens rather than a non-empty message.
- Api.RegisterUser: the failure text may be empty, for the same `detail` of `[]` or `[null]`.
- Api.UploadFailureMessage: an `errors` field that is truthy but not an array, or an entry that is null, makes `.map` or `.error` throw a TypeError whose text is engine-specific; `Detail` has no such case.

=== FILE: api.dfy ===
/** The decisions in lib/api.ts beyond the authenticated fetch: which message a
    failed upload throws, and how a registration answer is shaped. The HTTP
    exchange is abstracted into its status and the body fields read. */
module Api {
  import opened Wrappers
  import opened Text

  /** A document as the backend lists it. */
  datatype Document = Document(
    id: string,
    userId: string,
    filename: string,
    fileType: string,
    fileSize: nat,
    fileUrl: string,
    status: string,
    chunkCount: nat,
    errorMessage: Option<string>,
    createdAt: string)

  /** `response.ok`. */
  predicate IsOk(status: int) {
    200 <= status <= 299
  }

  predicate IsClientError(status: int) {
    400 <= status < 500
  }

  /** The fixed fallback text of a failed upload. */
  const UploadFailedText := "Nije moguće učitati dokumente."

  /** What `new Error(obj)` yields as message for a plain object. */
  const ObjectText := "[object Object]"

  /** The `detail` field of an error body, as far as the client looks at it. */
  datatype Detail =
    | NoDetail
        // missing, null or another falsy value (`0`, `false`)
    | TextDetail(text: string)
        // a string; a truthy number or boolean is its `String` text ("404", "true")
    | ListDetail(items: seq<string>)
        // an array: the text `join` gives each element ("" for null, "[object Object]"
        // for an object), as in FastAPI's list of validation errors
    | ErrorList(errors: seq<string>, message: Option<string>)
        // an object carrying a truthy `errors` array (each entry's `error` text,
        // "" when absent) and possibly a `message`
    | OtherDetail
        // any other object

  /** The message of `new Error(detail || fallback)`: the text itself, the
      fallback for a falsy detail, the comma-joined elements of an array, and
      "[object Object]" for an object. */
  function ThrownText(detail: Detail, fallback: string): (msg: string)
    ensures detail.NoDetail? ==> msg == fallback
    ensures detail.TextDetail? ==> msg == OrElse(detail.text, fallback)
    ensures detail.ListDetail? ==> msg == Join(detail.items, ",")
    ensures detail.ListDetail? && |detail.items| > 0 ==>
      |msg| == TotalLength(detail.items) + |detail.items| - 1
    ensures detail.ErrorList? || detail.OtherDetail? ==> msg == ObjectText
    // With a fallback, the message is empty only for an array whose join is empty.
    ensures fallback != "" ==>
      (msg == "" <==> detail.ListDetail? && (|detail.items| == 0 || detail.items == [""]))
  {
    match detail
    case NoDetail => fallback
    case TextDetail(text) => OrElse(text, fallback)
    case ListDetail(items) =>
      JoinEmptyIff(items, ",");
      if |items| == 0 then ""
      else
        JoinLength(items, ",");
        Join(items, ",")
    case _ => ObjectText
  }

  /** The message `uploadDocument` throws when the response is not ok. The inner
      catch rethrows every message but the fixed text, so what is thrown inside
      the try is what the caller sees. */
  function UploadFailureMessage(status: int, detail: Detail): (msg: string)
    ensures !IsClientError(status) ==> msg == UploadFailedText
    // Per-file errors win whenever joining them gives some text.
    ensures IsClientError(status) && detail.ErrorList? && !(|detail.errors| == 0 || detail.errors == [""]) ==>
      msg == Join(detail.errors, "\n")
    // No per-file text: the detail's own message, else the fixed text.
    ensures IsClientError(status) && detail.ErrorList? && (|detail.errors| == 0 || detail.errors == [""]) ==>
      msg == (if detail.message.Some? && detail.message.value != "" then detail.message.value else UploadFailedText)
    ensures IsClientError(status) && detail.TextDetail? ==>
      msg == (if detail.text != "" then detail.text else UploadFailedText)
    ensures IsClientError(status) && detail.NoDetail? ==> msg == UploadFailedText
    ensures IsClientError(status) && detail.OtherDetail? ==> msg == ObjectText
    ensures IsClientError(status) && detail.ListDetail? ==> msg == Join(detail.items, ",")
    // The message is empty only for an array detail whose elements join to nothing.
    ensures msg == "" <==>
      IsClientError(status) && detail.ListDetail? && (|detail.items| == 0 || detail.items == [""])
  {
    if IsClientError(status) then
      match detail
      case ErrorList(errors, message) =>
        JoinEmptyIff(errors, "\n");
        var joined := Join(errors, "\n");
        OrElse(joined, OrElse(if message.Some? then message.value else "", UploadFailedText))
      case _ => ThrownText(detail, UploadFailedText)
    else
      UploadFailedText
  }

  /** `uploadDocument`: the listed documents when the response is ok, else the thrown message. */
  function UploadDocument(status: int, uploaded: seq<Document>, detail: Detail): (r: Result<seq<Document>, string>)
    ensures r.Success? <==> IsOk(status)
    ensures r.Success? ==> r.value == uploaded
    ensures r.Failure? ==> r.error == UploadFailureMessage(status, detail)
    ensures r.Failure? ==>
      (r.error == "" <==> IsClientError(status) && detail.ListDetail? && (|detail.items| == 0 || detail.items == [""]))
  {
    if IsOk(status) then Success(uploaded) else Failure(UploadFailureMessage(status, detail))
  }

  /** One rejected file with a reason: that reason is the whole message. */
  lemma SingleFileError(status: int, error: string, message: Option<string>)
    requires IsClientError(status) && error != ""
    ensures UploadFailureMessage(status, ErrorList([error], message)) == error
  {
  }

  datatype UserRegister = UserRegister(email: string, password: string, name: string)

  datatype User = User(
    id: string,
    email: string,
    name: string,
    avatarUrl: Option<string>,
    bio: Option<string>,
    createdAt: string)

  datatype AuthResponse = AuthResponse(accessToken: string, refreshToken: Option<string>, user: User, message: Option<string>)

  /** The fields `registerUser` reads from a successful answer. */
  datatype RegisterReply = RegisterReply(accessToken: string, message: Option<string>)

  const RegistrationFailedText := "Registration failed"

  const UserIdPrefix := "user-"

  /** `registerUser`: on success, an answer built from the submitted data, with no
      refresh token; otherwise the message of `new Error(detail || "Registration failed")`.
      `stamp` and `now` stand for `Date.now()` and the current ISO time; an
      unreadable error body counts as `NoDetail`. */
  function RegisterUser(data: UserRegister, status: int, reply: RegisterReply, errorDetail: Detail,
                        stamp: string, now: string): (r: Result<AuthResponse, string>)
    ensures r.Success? <==> IsOk(status)
    ensures r.Success? ==>
      && r.value.accessToken == reply.accessToken
      && r.value.refreshToken.None?
      && r.value.user.email == data.email
      && r.value.user.name == data.name
      && r.value.user.avatarUrl.None?
      && r.value.user.bio.None?
      && UserIdPrefix <= r.value.user.id
    ensures r.Success? ==>
      (r.value.message.Some? <==> reply.message.Some? && reply.message.value != "")
      && (r.value.message.Some? ==> r.value.message == reply.message)
    ensures r.Failure? ==> r.error == ThrownText(errorDetail, RegistrationFailedText)
    ensures r.Failure? && errorDetail.TextDetail? && errorDetail.text != "" ==> r.error == errorDetail.text
    ensures r.Failure? ==>
      (r.error == "" <==> errorDetail.ListDetail? && (|errorDetail.items| == 0 || errorDetail.items == [""]))
  {
    if !IsOk(status) then
      Failure(ThrownText(errorDetail, RegistrationFailedText))
    else
      var message := if reply.message.Some? && reply.message.value != "" then reply.message else None;
      Success(AuthResponse(
        reply.accessToken,
        None,
        User(UserIdPrefix + stamp, data.email, data.name, None, None, now),
        message))
  }

  /** The password is sent to the backend but never enters the answer. */
  lemma RegisterIgnoresPassword(data: UserRegister, other: string, status: int, reply: RegisterReply,
                                errorDetail: Detail, stamp: string, now: string)
    ensures RegisterUser(data, status, reply, errorDetail, stamp, now)
         == RegisterUser(data.(password := other), status, reply, errorDetail, stamp, now)
  {
  }
}

=== FILE: auth.dfy ===
/** The browser-side token store of lib/auth.ts. Local storage is a
    string-to-string map; `hasWindow` says whether the code runs in a browser
    (on the server every operation is inert). */
module Auth {
  import opened Wrappers

  type Storage = map<string, string>

  /** Storage key of the access token. */
  const AccessKey := "auth_token"

  /** Storage key of the refresh token. */
  const RefreshKey := "refresh_token"

  /** Stored texts left behind by earlier buggy writes; a read treats them as no token. */
  predicate IsSentinel(v: string) {
    v == "null" || v == "undefined" || v == ""
  }

  /** The access slot is empty or holds a real token. */
  predicate Normalized(s: Storage) {
    AccessKey in s ==> !IsSentinel(s[AccessKey])
  }

  /** What a read returns, together with the storage it leaves behind. */
  datatype Read = Read(token: Option<string>, storage: Storage)

  /** `setAuthToken(token)`: stores the token as given, touching no other key. */
  function SetAuthToken(hasWindow: bool, s: Storage, token: string): (s': Storage)
    ensures hasWindow ==> AccessKey in s' && s'[AccessKey] == token
    ensures s' - {AccessKey} == s - {AccessKey}
    ensures !hasWindow ==> s' == s
  {
    if hasWindow then s[AccessKey := token] else s
  }

  /** `getAuthToken()`: a real token is returned as stored; a sentinel reads as
      no token and is removed from storage. */
  function GetAuthToken(hasWindow: bool, s: Storage): (r: Read)
    ensures r.token.Some? <==> hasWindow && AccessKey in s && !IsSentinel(s[AccessKey])
    ensures r.token.Some? ==> r.token.value == s[AccessKey] && r.storage == s
    ensures hasWindow && AccessKey in s && IsSentinel(s[AccessKey]) ==> r.storage == s - {AccessKey}
    ensures !hasWindow || AccessKey !in s ==> r.storage == s
    ensures hasWindow ==> Normalized(r.storage)
    ensures r.storage - {AccessKey} == s - {AccessKey}
  {
    if hasWindow then
      if AccessKey in s && IsSentinel(s[AccessKey]) then
        Read(None, s - {AccessKey})
      else if AccessKey in s then
        Read(Some(s[AccessKey]), s)
      else
        Read(None, s)
    else
      Read(None, s)
  }

  /** `removeAuthToken()`: empties the access slot only. */
  function RemoveAuthToken(hasWindow: bool, s: Storage): (s': Storage)
    ensures hasWindow ==> AccessKey !in s'
    ensures s' - {AccessKey} == s - {AccessKey}
    ensures !hasWindow ==> s' == s
  {
    if hasWindow then s - {AccessKey} else s
  }

  /** Result of `isAuthenticated()`, which reads (and so may self-heal) the store. */
  datatype Check = Check(authenticated: bool, storage: Storage)

  /** `isAuthenticated()`: a read returns a token. */
  function IsAuthenticated(hasWindow: bool, s: Storage): (r: Check)
    ensures r.authenticated <==> hasWindow && AccessKey in s && !IsSentinel(s[AccessKey])
    ensures r.storage == GetAuthToken(hasWindow, s).storage
  {
    var read := GetAuthToken(hasWindow, s);
    Check(read.token != None, read.storage)
  }

  /** The refresh slot as the authenticated fetch reads it: the stored value, if any.
      No such reader exists in lib/auth.ts; this is what the caller presumes. */
  function GetRefreshToken(s: Storage): (r: Option<string>)
    ensures r.Some? <==> RefreshKey in s
    ensures r.Some? ==> r.value == s[RefreshKey]
  {
    if RefreshKey in s then Some(s[RefreshKey]) else None
  }

  /** Stores a fresh token pair as the authenticated fetch presumes: both slots
      overwritten, every other key kept. */
  function SetAuthTokens(s: Storage, access: string, refresh: string): (s': Storage)
    ensures AccessKey in s' && s'[AccessKey] == access
    ensures RefreshKey in s' && s'[RefreshKey] == refresh
    ensures s' - {AccessKey, RefreshKey} == s - {AccessKey, RefreshKey}
  {
    s[AccessKey := access][RefreshKey := refresh]
  }

  /** Writing a real token and reading it back returns it; writing a sentinel
      reads back as no token and leaves the slot empty. */
  lemma SetThenGet(s: Storage, token: string)
    ensures !IsSentinel(token) ==>
      GetAuthToken(true, SetAuthToken(true, s, token)) == Read(Some(token), s[AccessKey := token])
    ensures IsSentinel(token) ==>
      GetAuthToken(true, SetAuthToken(true, s, token)) == Read(None, s - {AccessKey})
  {
  }

  /** After removal nobody is signed in, and the read that says so changes nothing. */
  lemma RemoveThenGet(hasWindow: bool, s: Storage)
    ensures GetAuthToken(hasWindow, RemoveAuthToken(hasWindow, s)).token == None
    ensures hasWindow ==>
      GetAuthToken(true, RemoveAuthToken(true, s)) == Read(None, RemoveAuthToken(true, s))
    ensures !IsAuthenticated(hasWindow, RemoveAuthToken(hasWindow, s)).authenticated
  {
  }

  /** Removing the access token leaves the refresh slot as it was. */
  lemma RemoveKeepsRefresh(hasWindow: bool, s: Storage)
    ensures RefreshKey in RemoveAuthToken(hasWindow, s) <==> RefreshKey in s
    ensures RefreshKey in s ==> RemoveAuthToken(hasWindow, s)[RefreshKey] == s[RefreshKey]
  {
  }

  /** Reading twice is reading once: the second read sees the healed store. */
  lemma GetIdempotent(hasWindow: bool, s: Storage)
    ensures GetAuthToken(hasWindow, GetAuthToken(hasWindow, s).storage) == GetAuthToken(hasWindow, s)
  {
  }

  /** Signed in exactly when a read returns a token. */
  lemma AuthenticatedIffToken(hasWindow: bool, s: Storage)
    ensures IsAuthenticated(hasWindow, s).authenticated <==> GetAuthToken(hasWindow, s).token.Some?
  {
  }

  /** Without a window nothing is read and nothing is written. */
  lemma NoWindowInert(s: Storage, token: string)
    ensures GetAuthToken(false, s) == Read(None, s)
    ensures SetAuthToken(false, s, token) == s
    ensures RemoveAuthToken(false, s) == s
    ensures !IsAuthenticated(false, s).authenticated
  {
  }

  /** Storing a fresh pair and reading it back gives the refresh token as stored,
      and the access token unless it is a sentinel. */
  lemma TokenPairRoundTrip(s: Storage, access: string, refresh: string)
    ensures GetRefreshToken(SetAuthTokens(s, access, refresh)) == Some(refresh)
    ensures GetAuthToken(true, SetAuthTokens(s, access, refresh)).token
         == (if IsSentinel(access) then None else Some(access))
    ensures GetRefreshToken(RemoveAuthToken(true, SetAuthTokens(s, access, refresh))) == Some(refresh)
  {
  }
}

=== FILE: chat.dfy ===
/** The chat view of app/chat/page.tsx as pure transitions on its state:
    the message list, the input box, the loading flag and the feedback dialog.
    Each handler runs atomically; what the network and the clock yield is
    passed in. */
module Chat {
  import opened Wrappers
  import opened Text

  datatype Role = User | Assistant

  datatype Polarity = Positive | Negative

  datatype Message = Message(
    id: string,
    role: Role,
    content: string,
    timestamp: string,
    feedback: Option<Polarity>,
    feedbackMessage: Option<string>)

  datatype FeedbackDialog = FeedbackDialog(isOpen: bool, messageId: Option<string>, kind: Option<Polarity>)

  datatype ChatState = ChatState(
    messages: seq<Message>,
    input: string,
    isLoading: bool,
    dialog: FeedbackDialog,
    feedbackText: string)

  const ClosedDialog := FeedbackDialog(false, None, None)

  /** The assistant bubble shown when sending fails. */
  const SendErrorText := "Greška pri slanju poruke. Molimo pokušajte ponovo."

  /** The fields of the backend's reply the view keeps. */
  datatype Reply = Reply(id: string, content: string, createdAt: string)

  /** How the send step ends. */
  datatype SendOutcome =
    | NotSignedIn         // no access token: the view goes to /login
    | Delivered(reply: Reply)
    | SendFailed          // `sendMessage` threw

  /** Clock-derived values: ids and timestamps are fresh and opaque. */
  datatype Stamps = Stamps(userId: string, userTime: string, errorId: string, errorTime: string)

  datatype SubmitResult = SubmitResult(state: ChatState, redirectToLogin: bool)

  /** The text box changes. */
  function TypeInput(s: ChatState, text: string): (r: ChatState)
    ensures r.input == text
    ensures r.(input := s.input) == s
  {
    s.(input := text)
  }

  /** A submit goes ahead: there is non-blank input and no send in flight. */
  predicate Accepts(s: ChatState) {
    !IsBlank(s.input) && !s.isLoading
  }

  /** How many messages a submit appends. */
  function Added(s: ChatState, outcome: SendOutcome): nat {
    if !Accepts(s) then 0 else if outcome.NotSignedIn? then 1 else 2
  }

  /** `handleSubmit`: append the trimmed input as a user message, then the
      assistant's reply or the fixed error bubble. */
  function Submit(s: ChatState, outcome: SendOutcome, st: Stamps): (r: SubmitResult)
    ensures !Accepts(s) ==> r == SubmitResult(s, false)
    ensures |r.state.messages| == |s.messages| + Added(s, outcome)
    ensures r.state.messages[..|s.messages|] == s.messages
    ensures r.redirectToLogin <==> Accepts(s) && outcome.NotSignedIn?
    ensures Accepts(s) ==>
      && r.state.messages[|s.messages|].role == User
      && r.state.messages[|s.messages|].content == Trim(s.input)
      && r.state.messages[|s.messages|].feedback.None?
      && r.state.input == ""
      && !r.state.isLoading
      && r.state.dialog == s.dialog
      && r.state.feedbackText == s.feedbackText
    ensures Accepts(s) && outcome.Delivered? ==>
      var last := r.state.messages[|r.state.messages| - 1];
      last.role == Assistant && last.id == outcome.reply.id && last.content == outcome.reply.content
    ensures Accepts(s) && outcome.SendFailed? ==>
      var last := r.state.messages[|r.state.messages| - 1];
      last.role == Assistant && last.content == SendErrorText
  {
    if !Accepts(s) then SubmitResult(s, false)
    else
      var sent := Message(st.userId, User, Trim(s.input), st.userTime, None, None);
      var pending := s.messages + [sent];
      var settled := s.(input := "", isLoading := false);
      match outcome
      case NotSignedIn =>
        SubmitResult(settled.(messages := pending), true)
      case Delivered(reply) =>
        var answer := Message(reply.id, Assistant, reply.content, reply.createdAt, None, None);
        SubmitResult(settled.(messages := pending + [answer]), false)
      case SendFailed =>
        var bubble := Message(st.errorId, Assistant, SendErrorText, st.errorTime, None, None);
        SubmitResult(settled.(messages := pending + [bubble]), false)
  }

  /** `handleNewChat`: an empty conversation and an empty input box. */
  function NewChat(s: ChatState): (r: ChatState)
    ensures r.messages == [] && r.input == ""
    ensures r.isLoading == s.isLoading && r.dialog == s.dialog && r.feedbackText == s.feedbackText
  {
    s.(messages := [], input := "")
  }

  /** `handleFeedback`: open the dialog for one message with a polarity and an empty comment. */
  function OpenFeedback(s: ChatState, messageId: string, kind: Polarity): (r: ChatState)
    ensures r.dialog == FeedbackDialog(true, Some(messageId), Some(kind))
    ensures r.feedbackText == ""
    ensures r.messages == s.messages && r.input == s.input && r.isLoading == s.isLoading
  {
    s.(dialog := FeedbackDialog(true, Some(messageId), Some(kind)), feedbackText := "")
  }

  /** `feedbackText.trim() || undefined`. */
  function Comment(text: string): (c: Option<string>)
    ensures c.None? <==> AllWhitespace(text)
    ensures c.Some? ==> c.value == Trim(text)
  {
    TrimEmptyIff(text);
    if Trim(text) == "" then None else Some(Trim(text))
  }

  /** Record a vote and comment on every message with the given id. */
  function ApplyFeedback(ms: seq<Message>, id: string, kind: Polarity, comment: Option<string>): (r: seq<Message>)
    ensures |r| == |ms|
    ensures forall i :: 0 <= i < |ms| && ms[i].id == id ==>
      r[i] == ms[i].(feedback := Some(kind), feedbackMessage := comment)
    ensures forall i :: 0 <= i < |ms| && ms[i].id != id ==> r[i] == ms[i]
  {
    seq(|ms|, i requires 0 <= i < |ms| =>
      if ms[i].id == id then ms[i].(feedback := Some(kind), feedbackMessage := comment) else ms[i])
  }

  /** `!feedbackDialog.messageId || !feedbackDialog.type`: nothing to submit. */
  predicate DialogIncomplete(d: FeedbackDialog) {
    d.messageId.None? || d.messageId.value == "" || d.kind.None?
  }

  /** `handleSubmitFeedback`: mark the targeted message, then close the dialog. */
  function SubmitFeedback(s: ChatState): (r: ChatState)
    ensures DialogIncomplete(s.dialog) ==> r == s
    ensures !DialogIncomplete(s.dialog) ==>
      && |r.messages| == |s.messages|
      && (forall i :: 0 <= i < |s.messages| && s.messages[i].id == s.dialog.messageId.value ==>
            && r.messages[i].feedback == s.dialog.kind
            && r.messages[i].feedbackMessage == Comment(s.feedbackText)
            && r.messages[i].(feedback := None, feedbackMessage := None)
               == s.messages[i].(feedback := None, feedbackMessage := None))
      && (forall i :: 0 <= i < |s.messages| && s.messages[i].id != s.dialog.messageId.value ==>
            r.messages[i] == s.messages[i])
      && r.dialog == ClosedDialog
      && r.feedbackText == ""
      && r.input == s.input && r.isLoading == s.isLoading
  {
    if DialogIncomplete(s.dialog) then s
    else
      s.(messages := ApplyFeedback(s.messages, s.dialog.messageId.value, s.dialog.kind.value, Comment(s.feedbackText)),
         dialog := ClosedDialog,
         feedbackText := "")
  }

  /** `handleCancelFeedback`: close the dialog, keep everything else. */
  function CancelFeedback(s: ChatState): (r: ChatState)
    ensures r.dialog == ClosedDialog && r.feedbackText == ""
    ensures r.messages == s.messages && r.input == s.input && r.isLoading == s.isLoading
  {
    s.(dialog := ClosedDialog, feedbackText := "")
  }

  /** The dialog is open exactly when it names a message and a polarity. */
  predicate DialogConsistent(d: FeedbackDialog) {
    d.isOpen <==> d.messageId.Some? && d.kind.Some?
  }

  /** Every handler keeps the dialog consistent. */
  lemma DialogConsistencyPreserved(s: ChatState, outcome: SendOutcome, st: Stamps, id: string, kind: Polarity, text: string)
    requires DialogConsistent(s.dialog)
    ensures DialogConsistent(Submit(s, outcome, st).state.dialog)
    ensures DialogConsistent(NewChat(s).dialog)
    ensures DialogConsistent(OpenFeedback(s, id, kind).dialog)
    ensures DialogConsistent(SubmitFeedback(s).dialog)
    ensures DialogConsistent(CancelFeedback(s).dialog)
    ensures DialogConsistent(TypeInput(s, text).dialog)
  {
  }

  /** Submitting a comment for the same message twice keeps only the last one:
      the second submit overwrites what the first recorded. */
  lemma FeedbackLastWriteWins(ms: seq<Message>, id: string, k1: Polarity, c1: Option<string>, k2: Polarity, c2: Option<string>)
    ensures ApplyFeedback(ApplyFeedback(ms, id, k1, c1), id, k2, c2) == ApplyFeedback(ms, id, k2, c2)
  {
  }

  /** One step of a conversation: type a text, then press send. */
  datatype Turn = Turn(text: string, outcome: SendOutcome, stamps: Stamps)

  function Converse(s: ChatState, turns: seq<Turn>): ChatState
    decreases |turns|
  {
    if |turns| == 0 then s
    else Converse(Submit(TypeInput(s, turns[0].text), turns[0].outcome, turns[0].stamps).state, turns[1..])
  }

  /** Messages a turn adds when no send is in flight. */
  function TurnAdds(t: Turn): nat {
    if IsBlank(t.text) then 0 else if t.outcome.NotSignedIn? then 1 else 2
  }

  function TotalAdds(turns: seq<Turn>): nat {
    if |turns| == 0 then 0 else TurnAdds(turns[0]) + TotalAdds(turns[1..])
  }

  /** Over any sequence of turns the history only grows at the end, and by the
      sum of what each turn adds: two per delivered or failed send, one when
      signed out, none for blank input. */
  lemma {:induction false} ConversationLength(s: ChatState, turns: seq<Turn>)
    requires !s.isLoading
    ensures var r := Converse(s, turns);
      && |r.messages| == |s.messages| + TotalAdds(turns)
      && r.messages[..|s.messages|] == s.messages
      && !r.isLoading
    decreases |turns|
  {
    if |turns| > 0 {
      var next := Submit(TypeInput(s, turns[0].text), turns[0].outcome, turns[0].stamps).state;
      ConversationLength(next, turns[1..]);
      var r := Converse(next, turns[1..]);
      assert r.messages[..|next.messages|] == next.messages;
      assert r.messages[..|s.messages|] == next.messages[..|s.messages|];
    }
  }

  /** When every turn carries text and reaches the backend, each turn adds two. */
  lemma {:induction false} AllSendsAddTwo(turns: seq<Turn>)
    requires forall i :: 0 <= i < |turns| ==> !IsBlank(turns[i].text) && !turns[i].outcome.NotSignedIn?
    ensures TotalAdds(turns) == 2 * |turns|
    decreases |turns|
  {
    if |turns| > 0 {
      assert !IsBlank(turns[0].text) && !turns[0].outcome.NotSignedIn?;
      AllSendsAddTwo(turns[1..]);
    }
  }

  /** When every turn carries text and reaches the backend, the history grows by
      exactly two messages per turn, the user's and the assistant's (reply or
      error bubble), after the messages already there. */
  lemma TwoMessagesPerSend(s: ChatState, turns: seq<Turn>)
    requires !s.isLoading
    requires forall i :: 0 <= i < |turns| ==> !IsBlank(turns[i].text) && !turns[i].outcome.NotSignedIn?
    ensures var r := Converse(s, turns);
      && |r.messages| == |s.messages| + 2 * |turns|
      && r.messages[..|s.messages|] == s.messages
  {
    ConversationLength(s, turns);
    AllSendsAddTwo(turns);
  }
}

=== FILE: fetch_with_auth.dfy ===
/** `fetchWithAuth` of lib/api.ts: attach the bearer token, and on a 401 in the
    browser try one refresh and one replay, else sign the user out.

    The network is abstracted: the caller supplies what each request would
    yield, and the model reports which requests were issued, what the call
    returns, the storage it leaves and whether it sent the browser to /login. */
module AuthFetch {
  import opened Wrappers
  import opened Auth

  type Headers = map<string, string>

  const AuthorizationHeader := "Authorization"

  const Unauthorized := 401

  datatype Response = Response(status: int, body: string)

  /** What awaiting a `fetch` yields: a response, or a rejection (network failure). */
  datatype Fetched = Responded(response: Response) | NetworkError

  /** How the call to the refresh endpoint ends. */
  datatype RefreshOutcome =
    | NewPair(access: string, refresh: string)  // 2xx with a readable token pair
    | Rejected                                  // a non-2xx answer
    | Threw                                     // network failure or unreadable body

  /** A request the wrapper issues: to the caller's URL, or to the refresh endpoint. */
  datatype Request = Target(headers: Headers) | RefreshCall(refreshToken: string)

  datatype Outcome = Outcome(result: Fetched, storage: Storage, redirected: bool, requests: seq<Request>)

  function CountTargets(rs: seq<Request>): (n: nat)
    ensures n <= |rs|
  {
    if |rs| == 0 then 0 else (if rs[0].Target? then 1 else 0) + CountTargets(rs[1..])
  }

  function CountRefreshes(rs: seq<Request>): (n: nat)
    ensures n + CountTargets(rs) == |rs|
  {
    if |rs| == 0 then 0 else (if rs[0].RefreshCall? then 1 else 0) + CountRefreshes(rs[1..])
  }

  /** `makeRequest`'s headers: the caller's, plus `Bearer <token>` when the token is truthy. */
  function AuthHeaders(caller: Headers, token: Option<string>): (h: Headers)
    ensures token.Some? && token.value != "" ==>
      AuthorizationHeader in h && h[AuthorizationHeader] == "Bearer " + token.value
    ensures token.None? || token.value == "" ==> h == caller
    ensures h - {AuthorizationHeader} == caller - {AuthorizationHeader}
  {
    if token.Some? && token.value != "" then caller[AuthorizationHeader := "Bearer " + token.value]
    else caller
  }

  /** The first answer is a 401 seen in a browser: the only case that leads to a refresh. */
  predicate NeedsRefresh(hasWindow: bool, first: Fetched) {
    hasWindow && first.Responded? && first.response.status == Unauthorized
  }

  /** The store holds a truthy refresh token (after the initial access-token read). */
  predicate CanRefresh(s: Storage) {
    var rt := GetRefreshToken(GetAuthToken(true, s).storage);
    rt.Some? && rt.value != ""
  }

  /** Sign out as the catch and else branches do: drop the access token, go to /login,
      hand back the first response. */
  function SignOut(first: Fetched, s: Storage, sent: seq<Request>): Outcome {
    Outcome(first, RemoveAuthToken(true, s), true, sent)
  }

  function FetchWithAuth(hasWindow: bool, s: Storage, caller: Headers,
                         first: Fetched, refresh: RefreshOutcome, replay: Fetched): (o: Outcome)
    // The first request always goes out, with the token a read returns.
    ensures |o.requests| >= 1
    ensures o.requests[0] == Target(AuthHeaders(caller, GetAuthToken(hasWindow, s).token))
    // Never a loop: at most one refresh and one replay.
    ensures CountRefreshes(o.requests) <= 1
    ensures 1 <= CountTargets(o.requests) <= 2
    ensures CountTargets(o.requests) == 2 ==> CountRefreshes(o.requests) == 1
    // Anything but a 401 in a browser passes through untouched.
    ensures !NeedsRefresh(hasWindow, first) ==>
      && o.result == first
      && o.storage == GetAuthToken(hasWindow, s).storage
      && !o.redirected
      && |o.requests| == 1
    // The refresh endpoint is called exactly when a truthy refresh token is stored,
    // and it is sent that token.
    ensures NeedsRefresh(hasWindow, first) && !CanRefresh(s) ==> |o.requests| == 1
    ensures NeedsRefresh(hasWindow, first) && CanRefresh(s) ==>
      && |o.requests| >= 2
      && o.requests[1] == RefreshCall(GetRefreshToken(GetAuthToken(true, s).storage).value)
    // Refresh succeeded and the replay answered: its answer is returned, even a second 401.
    ensures NeedsRefresh(hasWindow, first) && CanRefresh(s) && refresh.NewPair? && replay.Responded? ==>
      && o.result == replay
      && AccessKey in o.storage && o.storage[AccessKey] == refresh.access
      && RefreshKey in o.storage && o.storage[RefreshKey] == refresh.refresh
      && !o.redirected
      && o.requests[|o.requests| - 1] == Target(AuthHeaders(caller, Some(refresh.access)))
    // Any other 401 path signs out and returns the original 401.
    ensures NeedsRefresh(hasWindow, first) && !(CanRefresh(s) && refresh.NewPair? && replay.Responded?) ==>
      && o.result == first
      && AccessKey !in o.storage
      && o.redirected
    ensures o.redirected ==> o.result == first && AccessKey !in o.storage
    // Only the two token slots can change, and the refresh slot only after a good refresh.
    ensures o.storage - {AccessKey, RefreshKey} == s - {AccessKey, RefreshKey}
    ensures !(NeedsRefresh(hasWindow, first) && CanRefresh(s) && refresh.NewPair?) ==>
      o.storage - {AccessKey} == s - {AccessKey}
  {
    var read := GetAuthToken(hasWindow, s);
    var sent := [Target(AuthHeaders(caller, read.token))];
    KeepsOthersWiden(read.storage, s);
    if !NeedsRefresh(hasWindow, first) then
      Outcome(first, read.storage, false, sent)
    else
      var rt := GetRefreshToken(read.storage);
      if rt.None? || rt.value == "" then
        KeepsOthersWiden(RemoveAuthToken(true, read.storage), s);
        SignOut(first, read.storage, sent)
      else
        var asked := sent + [RefreshCall(rt.value)];
        match refresh
        case NewPair(access, newRefresh) =>
          var stored := SetAuthTokens(read.storage, access, newRefresh);
          var replayed := asked + [Target(AuthHeaders(caller, Some(access)))];
          if replay.Responded? then Outcome(replay, stored, false, replayed)
          else
            KeepsOthersWiden(RemoveAuthToken(true, stored), stored);
            SignOut(first, stored, replayed)
        case _ =>
          KeepsOthersWiden(RemoveAuthToken(true, read.storage), s);
          SignOut(first, read.storage, asked)
  }

  /** Two stores that agree off the access slot agree off both token slots. */
  lemma KeepsOthersWiden(a: Storage, b: Storage)
    requires a - {AccessKey} == b - {AccessKey}
    ensures a - {AccessKey, RefreshKey} == b - {AccessKey, RefreshKey}
  {
    assert a - {AccessKey, RefreshKey} == (a - {AccessKey}) - {RefreshKey};
    assert b - {AccessKey, RefreshKey} == (b - {AccessKey}) - {RefreshKey};
  }

  /** Two 401s in a row end the call with the second one and a stored new pair:
      the wrapper never refreshes a second time. */
  lemma SecondUnauthorizedIsReturned(s: Storage, caller: Headers, first: Response,
                                     access: string, refresh: string, again: Response)
    requires first.status == Unauthorized && again.status == Unauthorized
    requires CanRefresh(s)
    ensures var o := FetchWithAuth(true, s, caller, Responded(first), NewPair(access, refresh), Responded(again));
      && o.result == Responded(again)
      && |o.requests| == 3
      && CountTargets(o.requests) == 2 && CountRefreshes(o.requests) == 1
  {
  }

  /** A forced sign-out clears the access slot and nothing else: whatever refresh
      token is stored stays, and so does every other key. */
  lemma SignOutKeepsRefreshSlot(s: Storage, caller: Headers, first: Response, refresh: RefreshOutcome, replay: Fetched)
    requires first.status == Unauthorized
    requires !CanRefresh(s) || refresh.Rejected? || refresh.Threw?
    ensures var o := FetchWithAuth(true, s, caller, Responded(first), refresh, replay);
      o.redirected && o.storage == s - {AccessKey}
  {
  }

  /** A replay that fails on the network is caught like a failed refresh: the original
      401 comes back and the access slot is cleared, but the new refresh token stays. */
  lemma ReplayFailureKeepsNewRefresh(s: Storage, caller: Headers, first: Response, access: string, refresh: string)
    requires first.status == Unauthorized
    requires CanRefresh(s)
    ensures var o := FetchWithAuth(true, s, caller, Responded(first), NewPair(access, refresh), NetworkError);
      && o.result == Responded(first)
      && o.redirected
      && AccessKey !in o.storage
      && RefreshKey in o.storage && o.storage[RefreshKey] == refresh
      && CountTargets(o.requests) == 2
  {
  }

  /** When the caller sends no `Authorization` of its own, the first request carries
      one exactly when the user counts as signed in, and then with that user's token. */
  lemma FirstRequestAuthorizedIff(hasWindow: bool, s: Storage, caller: Headers,
                                  first: Fetched, refresh: RefreshOutcome, replay: Fetched)
    requires AuthorizationHeader !in caller
    ensures var sent := FetchWithAuth(hasWindow, s, caller, first, refresh, replay).requests[0];
      && (AuthorizationHeader in sent.headers <==> IsAuthenticated(hasWindow, s).authenticated)
      && (AuthorizationHeader in sent.headers ==> sent.headers[AuthorizationHeader] == "Bearer " + s[AccessKey])
  {
  }
}

=== FILE: sidebar.dfy ===
/** The document panel of components/chat-sidebar.tsx: upload validation, the
    document list's updates, the pending flags, tab clicks and filename
    truncation. Network calls are passed in as their outcomes. */
module Sidebar {
  import opened Wrappers
  import opened Api

  const PdfType := "application/pdf"
  const PlainTextType := "text/plain"
  const DocxType := "application/vnd.openxmlformats-officedocument.wordprocessingml.document"

  /** The MIME types an upload may have. */
  const AllowedTypes: seq<string> := [PdfType, PlainTextType, DocxType]

  /** Largest upload accepted, in bytes: 10 MiB. */
  const MaxUploadSize: nat := 10 * 1024 * 1024

  /** Text of the error thrown when there is no access token. */
  const NotSignedInText := "Niste prijavljeni"

  /** The chosen file's declared MIME type and size. */
  datatype FileInfo = FileInfo(name: string, mimeType: string, size: nat)

  datatype Verdict = Accepted | WrongType | TooLarge

  /** The two checks `handleFileChange` makes before any request: type, then size. */
  function Validate(f: FileInfo): (v: Verdict)
    ensures v == Accepted <==> f.mimeType in AllowedTypes && f.size <= MaxUploadSize
    ensures v == WrongType <==> f.mimeType !in AllowedTypes
    ensures v == TooLarge <==> f.mimeType in AllowedTypes && f.size > MaxUploadSize
  {
    if f.mimeType !in AllowedTypes then WrongType
    else if f.size > MaxUploadSize then TooLarge
    else Accepted
  }

  /** A file of exactly 10 MiB passes the size check; one byte more fails it,
      and a file of the wrong type fails on its type whatever its size. */
  lemma SizeBoundary(name: string, mimeType: string, size: nat)
    ensures MaxUploadSize == 10485760
    ensures Validate(FileInfo(name, PdfType, MaxUploadSize)) == Accepted
    ensures Validate(FileInfo(name, PdfType, MaxUploadSize + 1)) == TooLarge
    ensures mimeType !in AllowedTypes ==> Validate(FileInfo(name, mimeType, size)) == WrongType
  {
  }

  /** The checks are monotone in size: a smaller file of an accepted type is accepted
      too, and a larger file of a type refused for size is refused for size too. */
  lemma ValidateMonotone(f: FileInfo, size: nat)
    ensures size <= f.size && Validate(f) == Accepted ==> Validate(f.(size := size)) == Accepted
    ensures size >= f.size && Validate(f) == TooLarge ==> Validate(f.(size := size)) == TooLarge
    ensures Validate(f) == WrongType <==> Validate(f.(size := size)) == WrongType
  {
  }

  datatype Panel = Panel(
    documents: seq<Document>,
    activeTab: string,
    isLoadingDocs: bool,
    isUploading: bool,
    deletingDocId: Option<string>)

  /** What the user is told after choosing a file (the toast, as data). */
  datatype UploadReport =
    | NoFile
    | Rejected(verdict: Verdict)
    | UploadError(message: string)
    | Added(document: Document)

  datatype UploadStep = UploadStep(panel: Panel, report: UploadReport, uploadRequested: bool)

  /** `handleFileChange`: validate the chosen file, upload it when signed in,
      and put the new document at the top of the list. */
  function HandleFileChange(p: Panel, file: Option<FileInfo>, signedIn: bool, upload: Result<Document, string>): (r: UploadStep)
    // No file, or a file the checks refuse: nothing is sent and nothing changes.
    ensures file.None? ==> r == UploadStep(p, NoFile, false)
    ensures file.Some? && Validate(file.value) != Accepted ==>
      r == UploadStep(p, Rejected(Validate(file.value)), false)
    // A file that passes: the upload goes out iff signed in, and the pending flag ends cleared.
    ensures file.Some? && Validate(file.value) == Accepted ==>
      && r.uploadRequested == signedIn
      && !r.panel.isUploading
      && r.panel.activeTab == p.activeTab
      && r.panel.isLoadingDocs == p.isLoadingDocs
      && r.panel.deletingDocId == p.deletingDocId
    // Success prepends exactly the uploaded document; anything else leaves the list.
    ensures r.report.Added? ==>
      && |r.panel.documents| == |p.documents| + 1
      && r.panel.documents[0] == r.report.document
      && r.panel.documents[1..] == p.documents
      && upload == Success(r.report.document)
    ensures !r.report.Added? ==> r.panel.documents == p.documents
    ensures r.report.Added? <==> file.Some? && Validate(file.value) == Accepted && signedIn && upload.Success?
    // Failures are reported with the thrown message.
    ensures file.Some? && Validate(file.value) == Accepted && !signedIn ==> r.report == UploadError(NotSignedInText)
    ensures file.Some? && Validate(file.value) == Accepted && signedIn && upload.Failure? ==>
      r.report == UploadError(upload.error)
  {
    match file
    case None => UploadStep(p, NoFile, false)
    case Some(f) =>
      var verdict := Validate(f);
      if verdict != Accepted then UploadStep(p, Rejected(verdict), false)
      else
        var done := p.(isUploading := false);
        if !signedIn then UploadStep(done, UploadError(NotSignedInText), false)
        else
          match upload
          case Success(doc) => UploadStep(done.(documents := [doc] + p.documents), Added(doc), true)
          case Failure(message) => UploadStep(done, UploadError(message), true)
  }

  /** `prev.filter((doc) => doc.id !== docId)`. */
  function Without(docs: seq<Document>, id: string): (r: seq<Document>)
    ensures |r| <= |docs|
    ensures forall d :: d in r ==> d in docs && d.id != id
    ensures forall d :: d in docs && d.id != id ==> d in r
  {
    if |docs| == 0 then []
    else if docs[0].id == id then Without(docs[1..], id)
    else [docs[0]] + Without(docs[1..], id)
  }

  datatype DeleteStep = DeleteStep(panel: Panel, deleteRequested: bool)

  /** `handleDeleteDocument`: delete on the backend when signed in, then drop
      the document from the list; the pending id is cleared either way. */
  function HandleDeleteDocument(p: Panel, docId: string, signedIn: bool, deleted: bool): (r: DeleteStep)
    ensures r.deleteRequested == signedIn
    ensures r.panel.deletingDocId.None?
    ensures r.panel.(documents := p.documents, deletingDocId := p.deletingDocId) == p
    ensures signedIn && deleted ==>
      && (forall d :: d in r.panel.documents ==> d in p.documents && d.id != docId)
      && (forall d :: d in p.documents && d.id != docId ==> d in r.panel.documents)
    ensures signedIn && deleted ==> r.panel.documents == Without(p.documents, docId)
    ensures !(signedIn && deleted) ==> r.panel.documents == p.documents
  {
    var done := p.(deletingDocId := None);
    if signedIn && deleted then DeleteStep(done.(documents := Without(p.documents, docId)), true)
    else DeleteStep(done, signedIn)
  }

  /** Filtering works piecewise, so the kept documents stay in their order. */
  lemma {:induction false} WithoutAppend(a: seq<Document>, b: seq<Document>, id: string)
    ensures Without(a + b, id) == Without(a, id) + Without(b, id)
  {
    if |a| > 0 {
      assert (a + b)[1..] == a[1..] + b;
      WithoutAppend(a[1..], b, id);
    } else {
      assert a + b == b;
    }
  }

  /** Number of documents in the list with the given id. */
  function CountId(docs: seq<Document>, id: string): nat {
    if |docs| == 0 then 0 else (if docs[0].id == id then 1 else 0) + CountId(docs[1..], id)
  }

  /** The filter drops exactly the documents with that id, no more and no fewer. */
  lemma {:induction false} WithoutCount(docs: seq<Document>, id: string)
    ensures |Without(docs, id)| == |docs| - CountId(docs, id)
    ensures CountId(Without(docs, id), id) == 0
  {
    if |docs| > 0 {
      WithoutCount(docs[1..], id);
      if docs[0].id != id {
        assert ([docs[0]] + Without(docs[1..], id))[1..] == Without(docs[1..], id);
      }
    }
  }

  /** Nothing to drop: the list is kept as it is. */
  lemma {:induction false} WithoutAbsent(docs: seq<Document>, id: string)
    requires forall i :: 0 <= i < |docs| ==> docs[i].id != id
    ensures Without(docs, id) == docs
  {
    if |docs| > 0 {
      WithoutAbsent(docs[1..], id);
    }
  }

  /** Deleting a document just uploaded, with an id no older document has,
      gives back the list as it was before the upload. */
  lemma UploadThenDelete(p: Panel, f: FileInfo, doc: Document)
    requires Validate(f) == Accepted
    requires forall i :: 0 <= i < |p.documents| ==> p.documents[i].id != doc.id
    ensures var up := HandleFileChange(p, Some(f), true, Success(doc)).panel;
      HandleDeleteDocument(up, doc.id, true, true).panel.documents == p.documents
  {
    WithoutAbsent(p.documents, doc.id);
    assert ([doc] + p.documents)[1..] == p.documents;
  }

  /** A refused upload is reported with exactly the text `uploadDocument` throws,
      and the list stays as it was. */
  lemma UploadFailureReported(p: Panel, f: FileInfo, status: int, uploaded: seq<Document>, detail: Detail)
    requires Validate(f) == Accepted && !IsOk(status)
    ensures var r := HandleFileChange(p, Some(f), true, Failure(UploadDocument(status, uploaded, detail).error));
      && r.uploadRequested
      && r.report == UploadError(UploadFailureMessage(status, detail))
      && r.panel == p.(isUploading := false)
  {
  }

  datatype TabStep = TabStep(panel: Panel, toggled: bool)

  /** `handleTabClick`: select the tab; ask the parent to expand a collapsed sidebar. */
  function HandleTabClick(p: Panel, isCollapsed: bool, tab: string): (r: TabStep)
    ensures r.panel.activeTab == tab
    ensures r.toggled <==> isCollapsed
    ensures r.panel.(activeTab := p.activeTab) == p
  {
    TabStep(p.(activeTab := tab), isCollapsed)
  }

  /** Of several tab clicks the last one decides the active tab; a collapsed
      sidebar asks to expand on every click. */
  lemma LastTabClickWins(p: Panel, isCollapsed: bool, first: string, second: string)
    ensures var once := HandleTabClick(p, isCollapsed, first);
      HandleTabClick(once.panel, isCollapsed, second) == HandleTabClick(p, isCollapsed, second)
  {
  }

  /** The initial list load: the documents when signed in and the call succeeds,
      an empty list when it fails, the list unchanged without a token. */
  function LoadDocuments(p: Panel, signedIn: bool, fetched: Option<seq<Document>>): (r: Panel)
    ensures !r.isLoadingDocs
    ensures signedIn && fetched.Some? ==> r.documents == fetched.value
    ensures signedIn && fetched.None? ==> r.documents == []
    ensures !signedIn ==> r.documents == p.documents
    ensures r.(documents := p.documents, isLoadingDocs := p.isLoadingDocs) == p
  {
    var done := p.(isLoadingDocs := false);
    if !signedIn then done
    else if fetched.Some? then done.(documents := fetched.value)
    else done.(documents := [])
  }

  /** Loading again with the same answer changes nothing more: a reload is idempotent. */
  lemma LoadDocumentsIdempotent(p: Panel, signedIn: bool, fetched: Option<seq<Document>>)
    ensures LoadDocuments(LoadDocuments(p, signedIn, fetched), signedIn, fetched) == LoadDocuments(p, signedIn, fetched)
  {
  }

  /** Default display length of a filename, used by the document list. */
  const DefaultMaxLength := 15

  /** `filename.substring(0, maxLength)` for a string longer than `maxLength`:
      a negative length is clamped to zero. */
  function Clamp(maxLength: int): nat {
    if maxLength < 0 then 0 else maxLength
  }

  /** `truncateFilename`: short names unchanged, longer ones cut to `maxLength`
      characters and marked with an ellipsis. */
  function TruncateFilename(filename: string, maxLength: int): (r: string)
    ensures |filename| <= maxLength ==> r == filename
    ensures |filename| > maxLength ==>
      && |r| == Clamp(maxLength) + 3
      && r[..Clamp(maxLength)] == filename[..Clamp(maxLength)]
      && r[Clamp(maxLength)..] == "..."
  {
    if |filename| <= maxLength then filename
    else filename[..Clamp(maxLength)] + "..."
  }

  /** The displayed name never exceeds the limit plus the ellipsis, and starts
      like the real one. */
  lemma TruncateBounds(filename: string, maxLength: nat)
    ensures |TruncateFilename(filename, maxLength)| <= maxLength + 3
    ensures var k := if |filename| < maxLength then |filename| else maxLength;
      TruncateFilename(filename, maxLength)[..k] == filename[..k]
  {
  }

  /** Truncating a truncated name changes nothing. */
  lemma TruncateIdempotent(filename: string, maxLength: nat)
    ensures TruncateFilename(TruncateFilename(filename, maxLength), maxLength) == TruncateFilename(filename, maxLength)
  {
  }

  /** A name is shown unchanged exactly when it fits, or when it already ends,
      right after the first `maxLength` characters, in the ellipsis. */
  lemma TruncateUnchangedIff(filename: string, maxLength: nat)
    ensures TruncateFilename(filename, maxLength) == filename <==>
      |filename| <= maxLength || filename[maxLength..] == "..."
  {
  }

  /** The document list shows `truncateFilename(doc.filename)`: names of up to 15
      characters appear whole, longer ones as 18 characters ending in "...". */
  lemma ListedNameBounds(doc: Document)
    ensures var shown := TruncateFilename(doc.filename, DefaultMaxLength);
      && (|doc.filename| <= 15 <==> shown == doc.filename && |shown| <= 15)
      && (|doc.filename| > 15 ==> |shown| == 18 && shown[15..] == "...")
  {
  }
}

=== FILE: text.dfy ===
/** The JavaScript string operations the client's decisions rest on:
    `String.prototype.trim`, `Array.prototype.join` and the `a || b`
    fallback on strings (the empty string is the only falsy string). */
module Text {

  /** ECMAScript WhiteSpace and LineTerminator code points: what `trim` strips. */
  predicate IsWhitespace(c: char) {
    || c == '\t' || c == '\n' || c == '\U{000B}' || c == '\U{000C}' || c == '\r'
    || c == ' ' || c == '\U{00A0}' || c == '\U{1680}'
    || ('\U{2000}' <= c <= '\U{200A}')
    || c == '\U{2028}' || c == '\U{2029}' || c == '\U{202F}' || c == '\U{205F}'
    || c == '\U{3000}' || c == '\U{FEFF}'
  }

  predicate AllWhitespace(s: string) {
    forall i :: 0 <= i < |s| ==> IsWhitespace(s[i])
  }

  /** Number of whitespace characters at the front of `s`. */
  function LeadingWhitespace(s: string): (n: nat)
    ensures n <= |s|
    ensures AllWhitespace(s[..n])
    ensures n == |s| || !IsWhitespace(s[n])
  {
    if |s| > 0 && IsWhitespace(s[0]) then
      var n := 1 + LeadingWhitespace(s[1..]);
      assert forall i :: 1 <= i < n ==> s[..n][i] == s[1..][..n - 1][i - 1];
      n
    else 0
  }

  /** Index at which the whitespace run at the end of `s` begins. */
  function TrailingStart(s: string): (n: nat)
    ensures n <= |s|
    ensures AllWhitespace(s[n..])
    ensures n == 0 || !IsWhitespace(s[n - 1])
  {
    if |s| > 0 && IsWhitespace(s[|s| - 1]) then
      var n := TrailingStart(s[..|s| - 1]);
      assert forall i :: 0 <= i < |s| - 1 - n ==> s[n..][i] == s[..|s| - 1][n..][i];
      n
    else |s|
  }

  /** `s.trim()`: `s` without its leading and trailing whitespace. */
  function Trim(s: string): (r: string)
    ensures |r| <= |s|
    ensures r == [] || (!IsWhitespace(r[0]) && !IsWhitespace(r[|r| - 1]))
    // Exactly the white space at both ends is cut away.
    ensures exists i, j :: 0 <= i <= j <= |s| && r == s[i..j] && AllWhitespace(s[..i]) && AllWhitespace(s[j..])
  {
    var i := LeadingWhitespace(s);
    var t := s[i..];
    var j := i + TrailingStart(t);
    assert t[..j - i] == s[i..j];
    assert s[j..] == t[j - i..];
    t[..j - i]
  }

  /** `!s.trim()`: the input holds nothing but whitespace. */
  predicate IsBlank(s: string) {
    Trim(s) == ""
  }

  /** `a || b` for strings: `a` unless it is empty. */
  function OrElse(a: string, b: string): (r: string)
    ensures r == a || r == b
    ensures r == "" ==> a == "" && b == ""
  {
    if a != "" then a else b
  }

  /** `parts.join(sep)`. */
  function Join(parts: seq<string>, sep: string): (r: string)
    ensures |parts| == 0 ==> r == ""
    // The first part opens the result and the last part closes it.
    ensures |parts| > 0 ==> parts[0] <= r
    ensures |parts| > 0 ==> |parts[|parts| - 1]| <= |r| && r[|r| - |parts[|parts| - 1]|..] == parts[|parts| - 1]
  {
    if |parts| == 0 then ""
    else if |parts| == 1 then parts[0]
    else parts[0] + sep + Join(parts[1..], sep)
  }

  function TotalLength(parts: seq<string>): nat {
    if |parts| == 0 then 0 else |parts[0]| + TotalLength(parts[1..])
  }

  /** Trimming yields the empty string exactly when every character is whitespace. */
  lemma TrimEmptyIff(s: string)
    ensures Trim(s) == "" <==> AllWhitespace(s)
  {
  }

  /** Trimming is idempotent. */
  lemma TrimIdempotent(s: string)
    ensures Trim(Trim(s)) == Trim(s)
  {
  }

  /** A join with a non-empty separator is empty exactly when there is
      nothing to join, or a single empty part. */
  lemma JoinEmptyIff(parts: seq<string>, sep: string)
    requires sep != ""
    ensures Join(parts, sep) == "" <==> |parts| == 0 || (|parts| == 1 && parts[0] == "")
  {
  }

  /** The joined string holds every part and one separator between neighbours. */
  lemma {:induction false} JoinLength(parts: seq<string>, sep: string)
    requires |parts| > 0
    ensures |Join(parts, sep)| == TotalLength(parts) + (|parts| - 1) * |sep|
  {
    if |parts| > 1 {
      JoinLength(parts[1..], sep);
      assert Join(parts, sep) == parts[0] + sep + Join(parts[1..], sep);
    }
  }
}

=== FILE: wrappers.dfy ===
/** Failure-compatible wrappers shared by the model: an absent-or-present value
    (TypeScript's `T | null`) and a value-or-error outcome (a resolved or
    rejected promise). */
module Wrappers {

  /** `Some(v)` for a present value, `None` for `null`/`undefined`. */
  datatype Option<+T> = None | Some(value: T)

  /** `Success(v)` for a resolved call, `Failure(e)` for one that throws `e`. */
  datatype Result<+R, +E> = Success(value: R) | Failure(error: E)
}
